=== FILE: README.md ===
# Delivery environment and app-state dispatch, modelled in Dafny

This project models the Python backend of a driver–order allocation
simulator. The backend has two parts:

* the reinforcement-learning environment `DeliveryEnv`
  (`backend/rl_environment.py`). Its discrete action packs an order slot and
  a driver choice into one integer. Its `step` decodes the action, sends an
  `assign` action to the graph when a gate allows it, advances the graph one
  time step, and records the delivery time of every order that became
  delivered. Its observation is a fixed-layout vector of driver features,
  pending-order slots and distances.
* the application state `AppState` (`backend/appstate.py`). It decides when
  the optimizer is asked for an action, when an action reaches the graph, and
  when the graph advances.

The graph (`backend/graph.py` holds only stubs) and the optimizer are
abstract collaborators. Their `do_action`, `time_step` and `get_action` are
function parameters, and every operation returns the trace of calls it made.
`Collaborators.Replay` defines what a trace does to the graph: it replays
the calls on the old graph. Lemmas show that this gives the graph each
operation leaves behind.

The modules are:

* `Basics`: `Option`, `Result`, the Python exceptions the code raises itself,
  and Python list indexing.
* `Seqs`: order-preserving filtering, sums, zero vectors, flattening.
* `ActionCodec`: action encoding and decoding.
* `Simulation`: orders, drivers, the graph snapshot, and the
  `order_id -> is_delivered` dictionary.
* `Collaborators`: call traces and replay.
* `ObservationLayout`: the observation vector.
* `DeliveryEnv`: construction, pending orders, observation, `step` and `reset`.
* `App`: the `AppState` dispatch.

Python's `//` and `%` floor, and Dafny's `/` and `%` are Euclidean. The two
agree for the positive divisor `num_drivers + 1`, so `Decode` uses Dafny's
operators and is exact for negative actions too. A negative order index
passes the gate `order_index < len(pending_orders)`. Python then indexes the
pending list from its end, or raises `IndexError` when the index is below
`-len`. The model keeps both behaviours.

An order is pending when it is neither delivered nor picked up
(backend/rl_environment.py:99, 123).

The observation's driver section has five entries per declared driver. A
graph can list more drivers than the environment declared, for example when
its `num_drivers` is `None` or 0. The Python code then writes one block per
listed driver, and every later section starts correspondingly further on.
The layout lemmas state this general offset (`DriverSectionLength`). The
vector has the declared length only when at most `num_drivers` drivers are
listed.

## Model

| member | source | states |
|---|---|---|
| ActionCodec.DriverOptions | backend/rl_environment.py:144 | the divisor `num_drivers + 1` is positive, so decoding never divides by zero |
| ActionCodec.Decode | backend/rl_environment.py:143-146 | every integer action decodes to a driver choice in `[0, num_drivers]`, and encoding the decoded pair gives back the action |
| ActionCodec.DecodeEncode | backend/rl_environment.py:59-62 | decoding `o*(num_drivers+1)+d` yields `(o, d)` for every order index `o` and every `0 <= d <= num_drivers` |
| ActionCodec.ActionInSpace | backend/rl_environment.py:58-66 | an action lies in `[0, max_pending_orders*(num_drivers+1))` exactly when its decoded order index lies in `[0, max_pending_orders)`; both directions |
| ActionCodec.EncodeInSpace | backend/rl_environment.py:59-66 | an order index and a driver choice in range encode into the action space, and only an order index in `[0, max_pending_orders)` does |
| Simulation.DeliveredById | backend/rl_environment.py:188 | the dictionary built before the time step has a key for every order id and only for those ids |
| Simulation.DeliveredByIdLastWins | backend/rl_environment.py:188 | when ids repeat, each id maps to the delivered flag of the last order with that id, as the comprehension overwrites earlier keys |
| Simulation.DeliveredByIdUnique | backend/rl_environment.py:188 | with distinct order ids, the dictionary maps each order's id to that order's delivered flag |
| Seqs.FlattenEntries | backend/rl_environment.py:113 | flattening a matrix whose rows have `cols` entries puts entry `c` of row `r` at its row-major position, which `Seqs.RowMajorIndexIsProduct` shows is `r*cols + c` |
| ObservationLayout.PadDrivers | backend/rl_environment.py:94-96 | padding adds whole zero blocks of five, keeps the existing prefix, stops at the first length reaching the target, and leaves a vector that already reaches it unchanged |
| ObservationLayout.DriverBlockSlots | backend/rl_environment.py:81-92 | driver `j`'s five features sit at entries `5j .. 5j+4` of the driver block |
| ObservationLayout.OrderBlockSlots | backend/rl_environment.py:100-108 | slot `i` of the order block sits at entries `4i .. 4i+3` |
| ObservationLayout.OrderPadding | backend/rl_environment.py:107-108 | the slots past the last pending order are zeros |
| ObservationLayout.LayoutLength | backend/rl_environment.py:79-119 | with an `n×n` distance matrix or none, the vector has `5*max(len(drivers), num_drivers) + max_pending_orders*4 + n*n` entries. With at most `num_drivers` listed drivers, this is the declared `num_drivers*5 + max_pending_orders*4 + n*n` |
| ObservationLayout.LayoutDriverSlots | backend/rl_environment.py:81-96 | for any number of listed drivers, driver `j` fills entries `5j .. 5j+4` with its normalised location, has-order flag, delay, and pickup and dropoff nodes. A driver without an order has zeros in the last two. The padding blocks up to `num_drivers` are zero |
| ObservationLayout.LayoutOrderSlots | backend/rl_environment.py:98-108 | the order section starts after `5*max(len(drivers), num_drivers)` entries. For the first `min(len(pending), max_pending_orders)` slots, slot `i` holds the `i`-th pending order's pickup, dropoff, creation time and waiting time. Every later slot is zeros |
| ObservationLayout.LayoutDistanceSlots | backend/rl_environment.py:110-117 | after the order section, a matrix with rows of `cols` entries has entry `m[r][c] / 1000` at offset `r*cols + c` (`Seqs.RowMajorIndexIsProduct`). Without a matrix the section is `num_nodes*num_nodes` zeros |
| DeliveryEnv.Init | backend/rl_environment.py:27-66 | a missing or zero driver count becomes 0. The statistics start empty. The observation and action spaces are sized from the counts |
| DeliveryEnv.InitDefault | backend/rl_environment.py:27 | the default `max_pending_orders` gives ten order slots, `10*(num_drivers+1)` actions and `num_drivers*5 + 40 + num_nodes*num_nodes` observation entries |
| DeliveryEnv.InitActionSpace | backend/rl_environment.py:58-66 | the actions of a new environment are exactly those whose decoded order slot is one of its `max_pending_orders` slots |
| DeliveryEnv.PendingOrders | backend/rl_environment.py:121-123 | an order is in the result exactly when it is in the graph's orders and is neither delivered nor picked up. The result is no longer than the input |
| DeliveryEnv.PendingOrdersPreserveOrder | backend/rl_environment.py:99 | the filter distributes over concatenation and keeps a single order exactly when it is pending. Together these fix the result as the pending orders in their original order |
| DeliveryEnv.PendingOrdersIdempotent | backend/rl_environment.py:121-123 | filtering twice equals filtering once, and a list of pending orders is its own filter |
| DeliveryEnv.GetObservation | backend/rl_environment.py:68-119 | without a graph, the result is the all-zero vector of the declared length. With a graph, it raises `ZeroDivisionError` exactly when the node count is 0 and a driver or a pending slot needs normalising |
| DeliveryEnv.ObservationLength | backend/rl_environment.py:43-49 | when the graph has at most `num_drivers` drivers and an `n×n` distance matrix or none, every observation produced has `num_drivers*5 + max_pending_orders*4 + num_nodes*num_nodes` entries, with or without a graph. This is the observation-space length `Init` declares |
| DeliveryEnv.NewlyDeliveredFlipped | backend/rl_environment.py:187-206 | with distinct ids before the time step, an order counts as newly delivered exactly when it is delivered now and no order with its id was delivered before |
| DeliveryEnv.GatedAssignment | backend/rl_environment.py:160-174 | an assignment is held back exactly when `order_index < len(pending)` and `driver_id < num_drivers` do not both hold. Past the gate, an out-of-range subscript raises `IndexError` |
| DeliveryEnv.Advance | backend/rl_environment.py:187-228 | after the optional assignment, the graph advances once, by the last call. The settings are kept and the delivery times only grow. The step returns exactly when observing the new state succeeds, and then returns that observation with `terminated` and `truncated` false. Otherwise it raises that observation's `ZeroDivisionError` |
| DeliveryEnv.Step | backend/rl_environment.py:125-228 | with no graph: nothing is called or changed, and the step returns terminated, reward 0 and a zero observation. A failing subscript raises `IndexError` before any call and changes nothing. When the step gets past the subscripts, `time_step` is called exactly once, last. An `assign` is sent iff the gate holds and no subscript fails. Past the subscripts, the step returns iff observing the new state succeeds, and it returns that observation. Otherwise it raises `ZeroDivisionError`. Settings are kept and recorded delivery times never change |
| DeliveryEnv.StepReturns | backend/rl_environment.py:215-228 | a step that gets past the subscripts on a graph with nodes returns rather than raises, and neither terminates nor truncates |
| DeliveryEnv.StepAssignmentContents | backend/rl_environment.py:162-174 | a sent assignment has type `'assign'`. It names the pending order at `order_index` and the driver at `driver_id`, and comes before the time step |
| DeliveryEnv.AssignThroughCodec | backend/rl_environment.py:143-174 | for a slot `o` and a choice `d` in range, and a graph with at least `num_drivers` drivers, the step never raises `IndexError`. It assigns iff `o < len(pending)` and `d < num_drivers`, and then it names `pending[o]` and `drivers[d]` |
| DeliveryEnv.StepReplaysCalls | backend/rl_environment.py:160-193 | the graph after a step is the old graph with the step's reported calls replayed in order |
| DeliveryEnv.StepDeliveryBookkeeping | backend/rl_environment.py:199-226 | a step appends exactly one delivery time per newly delivered order, in the graph's order, each being clock minus creation time. The reward is minus a hundredth of their sum less 0.01 and is added to the episode reward. `info` counts every delivery of the episode |
| DeliveryEnv.StepWithoutDeliveries | backend/rl_environment.py:199-213 | a step leaves the delivery times unchanged exactly when no order became delivered, and such a step returns reward -0.01 |
| DeliveryEnv.Reset | backend/rl_environment.py:230-242 | reset empties the delivery times and zeroes the episode reward, leaves everything else unchanged, and observes the graph |
| DeliveryEnv.ResetIdempotent | backend/rl_environment.py:230-242 | resetting twice equals resetting once. A reset right after a successful step observes exactly the observation that step returned |
| App.New | backend/appstate.py:3-8 | a new app state starts in training mode and holds the given graph and optimizer |
| App.TimeStep | backend/appstate.py:11-28 | without a graph, no calls are made and nothing changes. With a graph, the trace is exactly one of three. `[time_step]` when there is no optimizer or training is on. `[get_action, time_step]` when `get_action` returns `None`. `[get_action, do_action(a), time_step]` when it returns an action `a`. So `get_action` is called at most once and first, `do_action` receives exactly the returned action, and `time_step` is called exactly once, last. The optimizer and the mode are unchanged |
| App.TimeStepReplaysCalls | backend/appstate.py:19-28 | the graph after `time_step` is the old graph with the reported calls replayed in order |
| App.FreshStateOnlyAdvances | backend/appstate.py:8-28 | the first `time_step` of a new app state with a graph never consults the optimizer or acts on the graph. It advances the graph exactly once |
| App.ApplyAction | backend/appstate.py:35-44 | with a graph, the action goes unchanged to `do_action` as the only call, and the new graph is that call replayed. Without a graph nothing is called. The optimizer and the mode never change |

## Left out

- Floating point: observation entries, rewards and averages are exact `real`s. The float32 conversion and float rounding of `reward -= delivery_time / 100.0` are abstracted away.
- Debug `print` output throughout `step` and `_get_observation`. This includes the counts computed only for printing (backend/rl_environment.py:152-158, 192-197) and the post-assignment check that only prints (176-180).
- The Gymnasium spaces are reduced to their sizes. `Discrete`'s own validation of its size, `super().reset(seed=…)`, its random-number seeding and `render` are library behaviour and are not modelled.
- Negative sizes: `num_drivers`, `num_nodes` and `max_pending_orders` are natural numbers. A negative `num_drivers` from the graph, or a `num_nodes` of `None`, is not modelled.
- The graph's own behaviour: `do_action` and `time_step` are uninterpreted total functions, so exceptions raised inside them are not modelled. A missing `distance_matrix` attribute and a `None` one are both `None`. The distance matrix is a sequence of rows, and numpy's `flatten` is row concatenation.
- `get_action` is a pure, total function of the optimizer and the graph. Exceptions it raises are not modelled: the DQN optimizer's `get_action` builds an observation (backend/dqn_optimizer.py:94), which can raise `ZeroDivisionError`, and `AppState.time_step` then never reaches `graph.time_step()`. Its side effect in the DQN optimizer (rebinding the environment's graph) is not modelled either. Changes to `AppState.train` happen outside the modelled code.
- `last_delivery_time` is only ever initialised. The model keeps it and shows that step and reset leave it alone.
- backend/dqn_optimizer.py is not part of this model. It wraps Stable-Baselines3 plus file I/O, and its action decoding (lines 101-103) is the same codec as the environment's.
- backend/websocket_handler.py, backend/main.py and backend/routes.py are not part of this model: they are Socket.IO emission, a background thread, and Flask bootstrap.
- backend/envrionment.py and backend/optimizer.py are not part of this model: they are non-functional stubs.

=== FILE: action_codec.dfy ===
/** The discrete action encoding of the delivery environment.

    An action packs an order slot and a driver choice into one integer,
    `orderIndex * (numDrivers + 1) + driverId`, where driver choice
    `numDrivers` means "assign nobody". Decoding uses Python's `//` and `%`;
    with the divisor `numDrivers + 1` always positive these agree with
    Dafny's Euclidean `/` and `%`, also for negative actions. */
module ActionCodec {

  /** One choice per driver plus the "no assignment" choice. */
  function DriverOptions(numDrivers: nat): (k: nat)
    ensures k > 0
    ensures k - 1 == numDrivers
  {
    numDrivers + 1
  }

  /** The number of actions of the discrete action space. */
  function ActionSpaceSize(maxPendingOrders: nat, numDrivers: nat): nat {
    maxPendingOrders * DriverOptions(numDrivers)
  }

  /** The pair an action stands for. */
  datatype Decoded = Decoded(orderIndex: int, driverId: int)

  function Encode(orderIndex: int, driverId: int, numDrivers: nat): int {
    orderIndex * DriverOptions(numDrivers) + driverId
  }

  /** `(action // (numDrivers + 1), action % (numDrivers + 1))`. Every integer
      decodes to a driver choice in range and re-encodes to itself. */
  function Decode(action: int, numDrivers: nat): (d: Decoded)
    ensures 0 <= d.driverId <= numDrivers
    ensures Encode(d.orderIndex, d.driverId, numDrivers) == action
  {
    var k := DriverOptions(numDrivers);
    Decoded(action / k, action % k)
  }

  /** Multiplying by a positive factor keeps the order of two integers. */
  lemma MulMonotone(a: int, b: int, k: int)
    requires a <= b && k > 0
    ensures a * k <= b * k
  {
  }

  /** Decoding undoes encoding for every order index, provided the driver
      choice is one of the `numDrivers + 1` options. */
  lemma DecodeEncode(orderIndex: int, driverId: int, numDrivers: nat)
    requires 0 <= driverId <= numDrivers
    ensures Decode(Encode(orderIndex, driverId, numDrivers), numDrivers) == Decoded(orderIndex, driverId)
  {
    var k := DriverOptions(numDrivers);
    var a := Encode(orderIndex, driverId, numDrivers);
    var d := Decode(a, numDrivers);
    assert a == orderIndex * k + driverId;
    assert a == d.orderIndex * k + d.driverId;
    if d.orderIndex < orderIndex {
      MulMonotone(d.orderIndex + 1, orderIndex, k);
      assert false;
    } else if d.orderIndex > orderIndex {
      MulMonotone(orderIndex + 1, d.orderIndex, k);
      assert false;
    }
  }

  /** An action lies in the action space exactly when its order slot is one of
      the `maxPendingOrders` slots (its driver choice is always in range). */
  lemma ActionInSpace(action: int, maxPendingOrders: nat, numDrivers: nat)
    ensures 0 <= action < ActionSpaceSize(maxPendingOrders, numDrivers)
            <==> 0 <= Decode(action, numDrivers).orderIndex < maxPendingOrders
  {
    var k := DriverOptions(numDrivers);
    var d := Decode(action, numDrivers);
    assert action == d.orderIndex * k + d.driverId;
    if d.orderIndex < 0 {
      MulMonotone(d.orderIndex, -1, k);
    } else if d.orderIndex < maxPendingOrders {
      MulMonotone(d.orderIndex, maxPendingOrders - 1, k);
      MulMonotone(0, d.orderIndex, k);
    } else {
      MulMonotone(maxPendingOrders, d.orderIndex, k);
    }
  }

  /** Every pair of an order slot and a driver choice has an action in the
      action space, so the encoding is onto the slot/choice grid. */
  lemma EncodeInSpace(orderIndex: int, driverId: int, maxPendingOrders: nat, numDrivers: nat)
    requires 0 <= driverId <= numDrivers
    ensures 0 <= orderIndex < maxPendingOrders
            <==> 0 <= Encode(orderIndex, driverId, numDrivers) < ActionSpaceSize(maxPendingOrders, numDrivers)
  {
    DecodeEncode(orderIndex, driverId, numDrivers);
    ActionInSpace(Encode(orderIndex, driverId, numDrivers), maxPendingOrders, numDrivers);
  }
}

=== FILE: app_state.dfy ===
/** The application state's dispatch: when the optimizer is consulted, when
    an action reaches the graph, and when the graph advances.

    The graph and the optimizer are abstract collaborators; a present graph
    or optimizer is one that Python treats as true (neither object defines
    its own truth value). Each operation returns the calls it made. */
module App {
  import opened Basics
  import opened Collaborators

  datatype AppState<G, O> = AppState(graph: Option<G>, optimizer: Option<O>, train: bool)

  /** The graph's operations and the optimizer's `get_action(graph)`, which
      yields an action or `None`. */
  datatype Collaborator<!G, -O, !A> = Collaborator(graphOps: Operations<G, A>, getAction: (O, G) -> Option<A>)

  /** The state and the calls an operation made. */
  datatype Outcome<G, O, A> = Outcome(state: AppState<G, O>, calls: seq<Call<A>>)

  /** A new application state starts in training mode. */
  function New<G, O>(graph: Option<G>, optimizer: Option<O>): (s: AppState<G, O>)
    ensures s.train
    ensures s.graph == graph && s.optimizer == optimizer
  {
    AppState(graph, optimizer, true)
  }

  /** `time_step`: outside training, ask the optimizer for an action and
      apply it when there is one; then advance the graph. Nothing happens
      without a graph. */
  function TimeStep<G, O, A>(s: AppState<G, O>, c: Collaborator<G, O, A>): (out: Outcome<G, O, A>)
    ensures s.graph.None? ==> out.state == s && out.calls == []
    ensures s.graph.Some? ==> AdvancedOnceAtEnd(out.calls) && out.state.graph.Some?
    ensures AskedOptimizer(out.calls) <==> s.graph.Some? && s.optimizer.Some? && !s.train
    ensures AskedOptimizer(out.calls) ==> out.calls[0].GetAction?
    ensures ActedOnGraph(out.calls) <==>
              AskedOptimizer(out.calls) && c.getAction(s.optimizer.value, s.graph.value).Some?
    ensures ActedOnGraph(out.calls) ==>
              out.calls == [GetAction, DoAction(c.getAction(s.optimizer.value, s.graph.value).value), Call.TimeStep]
    ensures AskedOptimizer(out.calls) && !ActedOnGraph(out.calls) ==> out.calls == [GetAction, Call.TimeStep]
    ensures s.graph.Some? && !AskedOptimizer(out.calls) ==> out.calls == [Call.TimeStep]
    ensures out.state.optimizer == s.optimizer && out.state.train == s.train
  {
    match s.graph
    case None => Outcome(s, [])
    case Some(g) =>
      if s.optimizer.Some? && !s.train then
        match c.getAction(s.optimizer.value, g)
        case Some(a) =>
          var calls := [GetAction, DoAction(a), Call.TimeStep];
          assert calls[0].GetAction? && calls[1].DoAction?;
          Outcome(s.(graph := Some(c.graphOps.timeStep(c.graphOps.doAction(g, a)))), calls)
        case None =>
          var calls := [GetAction, Call.TimeStep];
          assert calls[0].GetAction?;
          Outcome(s.(graph := Some(c.graphOps.timeStep(g))), calls)
      else
        Outcome(s.(graph := Some(c.graphOps.timeStep(g))), [Call.TimeStep])
  }

  /** The graph after `time_step` is the old graph with the reported calls
      replayed on it in order. */
  lemma TimeStepReplaysCalls<G, O, A>(s: AppState<G, O>, c: Collaborator<G, O, A>)
    requires s.graph.Some?
    ensures var out := TimeStep(s, c);
            out.state.graph == Some(Replay(c.graphOps, s.graph.value, out.calls))
  {
  }

  /** A fresh application state is in training mode, so its first
      `time_step` never consults the optimizer and only advances the graph. */
  lemma FreshStateOnlyAdvances<G, O, A>(graph: G, optimizer: Option<O>, c: Collaborator<G, O, A>)
    ensures var out := TimeStep(New(Some(graph), optimizer), c);
            && !AskedOptimizer(out.calls)
            && !ActedOnGraph(out.calls)
            && TimeSteps(out.calls) == 1
  {
    var out := TimeStep(New(Some(graph), optimizer), c);
    AdvancedOnceCount(out.calls);
  }

  /** `apply_action`: the action goes to the graph unchanged when there is a
      graph, and nothing else changes. */
  function ApplyAction<G, O, A>(s: AppState<G, O>, c: Collaborator<G, O, A>, action: A): (out: Outcome<G, O, A>)
    ensures s.graph.None? ==> out.state == s && out.calls == []
    ensures s.graph.Some? ==>
              && out.calls == [DoAction(action)]
              && out.state.graph == Some(Replay(c.graphOps, s.graph.value, out.calls))
    ensures out.state.optimizer == s.optimizer && out.state.train == s.train
  {
    match s.graph
    case None => Outcome(s, [])
    case Some(g) => Outcome(s.(graph := Some(c.graphOps.doAction(g, action))), [DoAction(action)])
  }
}

=== FILE: basics.dfy ===
/** Shared vocabulary: optional values, and results that carry the Python
    exception the modelled code would raise instead of a value. */
module Basics {

  /** `None` or a present value, the model of Python's `Optional[T]`. */
  datatype Option<+T> = None | Some(value: T)

  /** The exceptions the modelled code raises by itself (no collaborator involved). */
  datatype Error =
    | IndexError         // a list subscript outside the list
    | ZeroDivisionError  // `float(x) / 0`

  /** A computed value, or the exception raised while computing it. */
  datatype Result<+T> = Success(value: T) | Failure(error: Error)

  /** Whether Python accepts `i` as a subscript of a list of length `n`:
      negative subscripts count back from the end. */
  predicate InPyRange(n: nat, i: int) {
    -(n as int) <= i < n
  }

  /** Python's `s[i]` on a list. */
  function PyIndex<T>(s: seq<T>, i: int): T
    requires InPyRange(|s|, i)
  {
    if i < 0 then s[|s| + i] else s[i]
  }
}

=== FILE: collaborators.dfy ===
/** Calls into the abstract collaborators (the graph and the optimizer), and
    their effect on the graph.

    The graph's `do_action` and `time_step` are uninterpreted: they are passed
    in as functions. An operation of the model returns the calls it made as a
    trace, so that "called once", "called only when …" and "in this order" are
    statements about that trace. */
module Collaborators {

  /** One call into a collaborator: `optimizer.get_action(graph)`,
      `graph.do_action(action)` or `graph.time_step()`. */
  datatype Call<A> = GetAction | DoAction(action: A) | TimeStep

  /** The graph's two state-changing operations. */
  datatype Operations<!G, -A> = Operations(doAction: (G, A) -> G, timeStep: G -> G)

  /** The graph after one call; the optimizer's `get_action` leaves it as it is. */
  function Apply<G, A>(ops: Operations<G, A>, g: G, c: Call<A>): G {
    match c
    case GetAction => g
    case DoAction(a) => ops.doAction(g, a)
    case TimeStep => ops.timeStep(g)
  }

  /** The graph after a whole trace of calls, applied in order. */
  function Replay<G, A>(ops: Operations<G, A>, g: G, calls: seq<Call<A>>): G
    decreases |calls|
  {
    if calls == [] then g else Replay(ops, Apply(ops, g, calls[0]), calls[1..])
  }

  /** Replaying a trace extended by one call applies that call last. */
  lemma {:induction false} ReplaySnoc<G, A>(ops: Operations<G, A>, g: G, calls: seq<Call<A>>, c: Call<A>)
    ensures Replay(ops, g, calls + [c]) == Apply(ops, Replay(ops, g, calls), c)
    decreases |calls|
  {
    if calls != [] {
      assert (calls + [c])[1..] == calls[1..] + [c];
      ReplaySnoc(ops, Apply(ops, g, calls[0]), calls[1..], c);
    }
  }

  /** How many `time_step` calls a trace holds. */
  function TimeSteps<A>(calls: seq<Call<A>>): nat {
    if calls == [] then 0 else (if calls[0].TimeStep? then 1 else 0) + TimeSteps(calls[1..])
  }

  /** Whether the trace holds an `optimizer.get_action` call. */
  predicate AskedOptimizer<A>(calls: seq<Call<A>>) {
    exists i :: 0 <= i < |calls| && calls[i].GetAction?
  }

  /** Whether the trace holds a `graph.do_action` call. */
  predicate ActedOnGraph<A>(calls: seq<Call<A>>) {
    exists i :: 0 <= i < |calls| && calls[i].DoAction?
  }

  /** The graph was advanced exactly once, by the last call of the trace. */
  predicate AdvancedOnceAtEnd<A>(calls: seq<Call<A>>) {
    && |calls| > 0
    && calls[|calls| - 1].TimeStep?
    && forall i :: 0 <= i < |calls| - 1 ==> !calls[i].TimeStep?
  }

  /** Advancing once at the end means the trace holds exactly one `time_step`. */
  lemma {:induction false} AdvancedOnceCount<A>(calls: seq<Call<A>>)
    requires AdvancedOnceAtEnd(calls)
    ensures TimeSteps(calls) == 1
  {
    if |calls| > 1 {
      assert AdvancedOnceAtEnd(calls[1..]);
      AdvancedOnceCount(calls[1..]);
    }
  }

  /** Ending a trace of `do_action` calls with a `time_step` advances the graph
      once, at the end, without asking the optimizer; it acted on the graph
      exactly when the trace held a call before. */
  lemma ActionsThenTimeStep<A>(calls: seq<Call<A>>)
    requires forall i :: 0 <= i < |calls| ==> calls[i].DoAction?
    ensures AdvancedOnceAtEnd(calls + [TimeStep])
    ensures !AskedOptimizer(calls + [TimeStep])
    ensures ActedOnGraph(calls + [TimeStep]) <==> calls != []
  {
    var t := calls + [TimeStep];
    if calls != [] {
      assert t[0].DoAction?;
    }
  }
}

=== FILE: delivery_env.dfy ===
/** The delivery environment: its construction, the pending-order filter,
    the observation, one `step` and `reset`.

    The environment holds a reference to the graph, which may be replaced or
    become `None` from outside; the driver and node counts it was built with
    stay fixed. The graph's `do_action` and `time_step` are passed in as
    `Operations`, and `step` reports the calls it made to them. */
module DeliveryEnv {
  import opened Basics
  import opened Seqs
  import opened Simulation
  import opened Collaborators
  import opened ActionCodec
  import opened ObservationLayout

  /** The default number of pending-order slots. */
  const DefaultMaxPendingOrders: nat := 10

  datatype Env = Env(
    graph: Option<GraphState>,
    maxPendingOrders: nat,
    numDrivers: nat,
    numNodes: nat,
    episodeDeliveryTimes: seq<int>,
    episodeReward: real,
    lastDeliveryTime: real,
    observationDim: nat,    // the length of the observation space's vectors
    actionSpaceSize: nat)   // the number of discrete actions

  /** The declared spaces agree with the sizes the environment was built from. */
  predicate SpacesAgree(env: Env) {
    && env.observationDim == ObsDim(env.numDrivers, env.maxPendingOrders, env.numNodes)
    && env.actionSpaceSize == ActionSpaceSize(env.maxPendingOrders, env.numDrivers)
  }

  /** Everything but the graph and the episode statistics is the same. */
  predicate SameSettings(a: Env, b: Env) {
    && a.maxPendingOrders == b.maxPendingOrders
    && a.numDrivers == b.numDrivers
    && a.numNodes == b.numNodes
    && a.lastDeliveryTime == b.lastDeliveryTime
    && a.observationDim == b.observationDim
    && a.actionSpaceSize == b.actionSpaceSize
  }

  /** Builds the environment for a graph: an absent or zero driver count
      counts as no drivers, statistics start empty, and the spaces are sized
      from the counts. */
  function Init(g: GraphState, maxPendingOrders: nat): (env: Env)
    ensures env.graph == Some(g)
    ensures env.maxPendingOrders == maxPendingOrders && env.numNodes == g.numNodes
    ensures g.numDrivers.None? ==> env.numDrivers == 0
    ensures g.numDrivers.Some? ==> env.numDrivers == g.numDrivers.value
    ensures env.episodeDeliveryTimes == [] && env.episodeReward == 0.0 && env.lastDeliveryTime == 0.0
    ensures SpacesAgree(env)
  {
    var numDrivers := match g.numDrivers case Some(n) => n case None => 0;
    Env(Some(g), maxPendingOrders, numDrivers, g.numNodes, [], 0.0, 0.0,
        ObsDim(numDrivers, maxPendingOrders, g.numNodes),
        ActionSpaceSize(maxPendingOrders, numDrivers))
  }

  /** `DeliveryEnv(graph)` with the default `max_pending_orders`: ten order
      slots, ten actions per driver choice. */
  function InitDefault(g: GraphState): (env: Env)
    ensures env.graph == Some(g) && env.maxPendingOrders == DefaultMaxPendingOrders
    ensures env.actionSpaceSize == DefaultMaxPendingOrders * (env.numDrivers + 1)
    ensures env.observationDim == env.numDrivers * 5 + DefaultMaxPendingOrders * 4 + g.numNodes * g.numNodes
  {
    Init(g, DefaultMaxPendingOrders)
  }

  /** The actions of a freshly built environment are exactly those whose order
      slot is one of its `maxPendingOrders` slots. */
  lemma InitActionSpace(g: GraphState, maxPendingOrders: nat, action: int)
    ensures var env := Init(g, maxPendingOrders);
            0 <= action < env.actionSpaceSize
            <==> 0 <= Decode(action, env.numDrivers).orderIndex < maxPendingOrders
  {
    var env := Init(g, maxPendingOrders);
    ActionInSpace(action, maxPendingOrders, env.numDrivers);
  }

  /** Neither delivered nor picked up. */
  predicate IsPending(o: Order) {
    !o.isDelivered && !o.isPickedUp
  }

  /** The pending orders of the graph, in the graph's order. */
  function PendingOrders(orders: seq<Order>): (r: seq<Order>)
    ensures |r| <= |orders|
    ensures forall o :: o in r <==> o in orders && !o.isDelivered && !o.isPickedUp
  {
    Filter(orders, IsPending)
  }

  /** The filter keeps the original order: it distributes over concatenation
      and keeps a single order exactly when that order is pending. */
  lemma PendingOrdersPreserveOrder(a: seq<Order>, b: seq<Order>, o: Order)
    ensures PendingOrders(a + b) == PendingOrders(a) + PendingOrders(b)
    ensures PendingOrders([o]) == if IsPending(o) then [o] else []
  {
    FilterConcat(a, b, IsPending);
    assert [o][1..] == [];
  }

  /** Filtering the pending orders again changes nothing, and a list of
      pending orders is its own filter. */
  lemma PendingOrdersIdempotent(orders: seq<Order>)
    ensures PendingOrders(PendingOrders(orders)) == PendingOrders(orders)
    ensures (forall i :: 0 <= i < |orders| ==> IsPending(orders[i])) ==> PendingOrders(orders) == orders
  {
    FilterIdempotent(orders, IsPending);
    if forall i :: 0 <= i < |orders| ==> IsPending(orders[i]) {
      FilterAll(orders, IsPending);
    }
  }

  /** The observation vector, or the zero vector of the declared length when
      the graph reference is `None`. */
  function GetObservation(env: Env): (r: Result<seq<real>>)
    ensures env.graph.None? ==>
              && r.Success?
              && |r.value| == ObsDim(env.numDrivers, env.maxPendingOrders, env.numNodes)
              && forall i :: 0 <= i < |r.value| ==> r.value[i] == 0.0
    ensures env.graph.Some? ==>
              (r.Failure? <==> env.numNodes == 0
                               && DividesByNodeCount(env.graph.value.drivers, PendingOrders(env.graph.value.orders),
                                                     env.maxPendingOrders))
  {
    match env.graph
    case None => Success(Zeros(ObsDim(env.numDrivers, env.maxPendingOrders, env.numNodes)))
    case Some(g) =>
      Layout(g.drivers, PendingOrders(g.orders), g.timestep, g.distanceMatrix,
             env.numDrivers, env.maxPendingOrders, env.numNodes)
  }

  /** The graph fits the sizes the environment was built with: at most
      `numDrivers` drivers and a square distance matrix (or none). */
  predicate GraphFits(env: Env) {
    env.graph.Some? ==>
      && |env.graph.value.drivers| <= env.numDrivers
      && SquareOrAbsent(env.graph.value.distanceMatrix, env.numNodes)
  }

  /** An observation, when one is produced, has the length of the declared
      observation space, with or without a graph. */
  lemma ObservationLength(env: Env)
    requires GraphFits(env)
    ensures GetObservation(env).Success? ==>
              |GetObservation(env).value| == ObsDim(env.numDrivers, env.maxPendingOrders, env.numNodes)
  {
    if env.graph.Some? {
      var g := env.graph.value;
      LayoutLength(g.drivers, PendingOrders(g.orders), g.timestep, g.distanceMatrix,
                   env.numDrivers, env.maxPendingOrders, env.numNodes);
    }
  }

  datatype Info = Info(episodeReward: real, numDelivered: nat, avgDeliveryTime: real)

  /** `(observation, reward, terminated, truncated, info)`; an empty `info`
      dictionary is `None`. */
  datatype StepReturn = StepReturn(
    observation: seq<real>,
    reward: real,
    terminated: bool,
    truncated: bool,
    info: Option<Info>)

  /** The environment after the call, the calls made to the graph, and what
      the call returned or raised. Changes made before an exception stay. */
  datatype StepOutcome = StepOutcome(env: Env, calls: seq<Call<ActionDict>>, result: Result<StepReturn>)

  /** The Python code's gate for issuing an assignment: `order_index < len(pending)`
      and `driver_id < num_drivers`. A negative order index passes it. */
  predicate AssignGate(env: Env, pendingCount: nat, d: Decoded) {
    d.orderIndex < pendingCount && d.driverId < env.numDrivers
  }

  /** Past the gate, `pending_orders[order_index]` or `graph.drivers[driver_id]`
      raises `IndexError`. */
  predicate SubscriptFails(g: GraphState, pending: seq<Order>, d: Decoded) {
    !InPyRange(|pending|, d.orderIndex) || !(0 <= d.driverId < |g.drivers|)
  }

  /** Whether the step gets as far as advancing the graph. */
  predicate ReachesTimeStep(env: Env, action: int) {
    env.graph.Some? &&
    var g := env.graph.value;
    var pending := PendingOrders(g.orders);
    var d := Decode(action, env.numDrivers);
    !(AssignGate(env, |pending|, d) && SubscriptFails(g, pending, d))
  }

  /** The orders of `after` that are delivered and were not recorded as
      delivered in the `order_id -> is_delivered` dictionary of `before`. */
  function NewlyDelivered(before: seq<Order>, after: seq<Order>): seq<Order> {
    var recorded := DeliveredById(before);
    Filter(after, (o: Order) => o.isDelivered && !RecordedDelivered(recorded, o.orderId))
  }

  /** With distinct ids before the time step, an order counts as newly
      delivered exactly when it is delivered now and no order with its id was
      delivered before (it is new, or its flag went from false to true). */
  lemma NewlyDeliveredFlipped(before: seq<Order>, after: seq<Order>)
    requires UniqueIds(before)
    ensures forall o :: o in NewlyDelivered(before, after) <==>
              && o in after
              && o.isDelivered
              && forall i :: 0 <= i < |before| && before[i].orderId == o.orderId ==> !before[i].isDelivered
  {
    var recorded := DeliveredById(before);
    DeliveredByIdUnique(before);
    forall o | o in after
      ensures RecordedDelivered(recorded, o.orderId) <==>
              exists i :: 0 <= i < |before| && before[i].orderId == o.orderId && before[i].isDelivered
    {
      if o.orderId in recorded {
        var i :| 0 <= i < |before| && before[i].orderId == o.orderId;
        assert recorded[o.orderId] == before[i].isDelivered;
      }
    }
  }

  /** The delivery time of each newly delivered order, in order. */
  function DeliveryTimes(delivered: seq<Order>, timestep: int): (r: seq<int>)
    ensures |r| == |delivered|
    ensures forall i :: 0 <= i < |r| ==> r[i] == timestep - delivered[i].timeCreated
  {
    seq(|delivered|, i requires 0 <= i < |delivered| => timestep - delivered[i].timeCreated)
  }

  /** One hundredth of the total delivery time, negated, less 0.01 per step. */
  function StepReward(times: seq<int>): real {
    -(Sum(times) as real) / 100.0 - 0.01
  }

  /** The average delivery time, 0.0 for no deliveries. */
  function Mean(times: seq<int>): real {
    if times == [] then 0.0 else Sum(times) as real / |times| as real
  }

  /** From advancing the graph to the end of `step`: bookkeeping of newly
      delivered orders, the reward, and the observation. */
  function Advance(env: Env, ops: Operations<GraphState, ActionDict>, g: GraphState,
                   calls: seq<Call<ActionDict>>): (out: StepOutcome)
    requires forall i :: 0 <= i < |calls| ==> calls[i].DoAction?
    ensures out.calls == calls + [TimeStep]
    ensures && AdvancedOnceAtEnd(out.calls)
              && !AskedOptimizer(out.calls)
              && (ActedOnGraph(out.calls) <==> calls != [])
    ensures out.env.graph == Some(ops.timeStep(g))
    ensures SameSettings(out.env, env)
    ensures |env.episodeDeliveryTimes| <= |out.env.episodeDeliveryTimes|
    ensures out.env.episodeDeliveryTimes[..|env.episodeDeliveryTimes|] == env.episodeDeliveryTimes
    ensures out.result.Success? <==> GetObservation(out.env).Success?
    ensures out.result.Success? ==> GetObservation(out.env) == Success(out.result.value.observation)
    ensures out.result.Success? ==> !out.result.value.terminated && !out.result.value.truncated
    ensures out.result.Failure? ==> out.result.error == ZeroDivisionError
  {
    var after := ops.timeStep(g);
    var times := DeliveryTimes(NewlyDelivered(g.orders, after.orders), after.timestep);
    var reward := StepReward(times);
    var env' := env.(graph := Some(after),
                     episodeDeliveryTimes := env.episodeDeliveryTimes + times,
                     episodeReward := env.episodeReward + reward);
    var calls' := calls + [TimeStep];
    ActionsThenTimeStep(calls);
    match GetObservation(env')
    case Failure(e) => StepOutcome(env', calls', Failure(e))
    case Success(obs) =>
      var info := Info(env'.episodeReward, |env'.episodeDeliveryTimes|, Mean(env'.episodeDeliveryTimes));
      StepOutcome(env', calls', Success(StepReturn(obs, reward, false, false, Some(info))))
  }

  /** The assignment the gate lets through for an action, `None` when the
      gate holds it back, or the `IndexError` its subscripts raise. */
  function GatedAssignment(env: Env, g: GraphState, action: int): (r: Result<Option<ActionDict>>)
    ensures var pending, d := PendingOrders(g.orders), Decode(action, env.numDrivers);
            && (r.Failure? <==> AssignGate(env, |pending|, d) && SubscriptFails(g, pending, d))
            && (r.Failure? ==> r.error == IndexError)
            && (r == Success(None) <==> !AssignGate(env, |pending|, d))
  {
    var d := Decode(action, env.numDrivers);
    var pending := PendingOrders(g.orders);
    if !AssignGate(env, |pending|, d) then Success(None)
    else if SubscriptFails(g, pending, d) then Failure(IndexError)
    else Success(Some(ActionDict(AssignKind, PyIndex(pending, d.orderIndex).orderId, g.drivers[d.driverId].driverId)))
  }

  /** One `step`: decode the action, assign when the gate lets it through,
      advance the graph once, and account for the orders it delivered. */
  function Step(env: Env, ops: Operations<GraphState, ActionDict>, action: int): (out: StepOutcome)
    ensures env.graph.None? ==>
              && out.env == env && out.calls == []
              && out.result.Success?
              && out.result.value.terminated && !out.result.value.truncated
              && out.result.value.reward == 0.0 && out.result.value.info.None?
              && |out.result.value.observation| == ObsDim(env.numDrivers, env.maxPendingOrders, env.numNodes)
              && forall i :: 0 <= i < |out.result.value.observation| ==> out.result.value.observation[i] == 0.0
    ensures env.graph.Some? && !ReachesTimeStep(env, action) ==>
              out.env == env && out.calls == [] && out.result == Failure(IndexError)
    ensures ReachesTimeStep(env, action) ==>
              && AdvancedOnceAtEnd(out.calls)
              && |out.calls| <= 2
              && !AskedOptimizer(out.calls)
              && out.env.graph.Some?
              && (out.result.Success? <==> GetObservation(out.env).Success?)
              && (out.result.Success? ==> GetObservation(out.env) == Success(out.result.value.observation))
              && (out.result.Success? ==> !out.result.value.terminated && !out.result.value.truncated)
              && (out.result.Failure? ==> out.result.error == ZeroDivisionError)
    ensures ActedOnGraph(out.calls) <==>
              ReachesTimeStep(env, action)
              && AssignGate(env, |PendingOrders(env.graph.value.orders)|, Decode(action, env.numDrivers))
    ensures SameSettings(out.env, env)
    ensures |env.episodeDeliveryTimes| <= |out.env.episodeDeliveryTimes|
    ensures out.env.episodeDeliveryTimes[..|env.episodeDeliveryTimes|] == env.episodeDeliveryTimes
  {
    match env.graph
    case None =>
      StepOutcome(env, [], Success(StepReturn(GetObservation(env).value, 0.0, true, false, None)))
    case Some(g) =>
      match GatedAssignment(env, g, action)
      case Failure(e) => StepOutcome(env, [], Failure(e))
      case Success(None) => Advance(env, ops, g, [])
      case Success(Some(assignment)) => Advance(env, ops, ops.doAction(g, assignment), [DoAction(assignment)])
  }

  /** A step that gets past the subscripts returns, rather than raises,
      whenever the graph has nodes; it then neither terminates nor truncates. */
  lemma StepReturns(env: Env, ops: Operations<GraphState, ActionDict>, action: int)
    requires ReachesTimeStep(env, action) && env.numNodes > 0
    ensures var out := Step(env, ops, action);
            && out.result.Success?
            && !out.result.value.terminated && !out.result.value.truncated
  {
  }

  /** The graph a step leaves behind is the old graph with the step's calls
      replayed on it, in the order they were made. */
  lemma StepReplaysCalls(env: Env, ops: Operations<GraphState, ActionDict>, action: int)
    requires ReachesTimeStep(env, action)
    ensures var out := Step(env, ops, action);
            out.env.graph == Some(Replay(ops, env.graph.value, out.calls))
  {
    var out := Step(env, ops, action);
    var g := env.graph.value;
    match GatedAssignment(env, g, action)
    case Success(None) =>
      assert Replay(ops, g, [TimeStep]) == ops.timeStep(g);
    case Success(Some(a)) =>
      ReplaySnoc(ops, g, [DoAction(a)], TimeStep);
  }

  /** The delivery bookkeeping of a step: one delivery time per newly
      delivered order (see `NewlyDeliveredFlipped`), each the graph's clock
      minus the order's creation time, appended in the graph's order; the
      reward is minus a hundredth of their sum, less 0.01, and is added to the
      episode reward; `info` counts every delivery of the episode. */
  lemma StepDeliveryBookkeeping(env: Env, ops: Operations<GraphState, ActionDict>, action: int)
    requires ReachesTimeStep(env, action)
    ensures var out := Step(env, ops, action);
            var before := Replay(ops, env.graph.value, out.calls[..|out.calls| - 1]);
            var after := out.env.graph.value;
            var times := DeliveryTimes(NewlyDelivered(before.orders, after.orders), after.timestep);
            && after == ops.timeStep(before)
            && out.env.episodeDeliveryTimes == env.episodeDeliveryTimes + times
            && |out.env.episodeDeliveryTimes| == |env.episodeDeliveryTimes| + |NewlyDelivered(before.orders, after.orders)|
            && out.env.episodeReward == env.episodeReward + StepReward(times)
            && (out.result.Success? ==>
                  && out.result.value.reward == StepReward(times)
                  && out.result.value.info == Some(Info(out.env.episodeReward, |out.env.episodeDeliveryTimes|,
                                                        Mean(out.env.episodeDeliveryTimes))))
  {
  }

  /** The delivery times of a step stay as they were exactly when no order
      became delivered, and such a step is rewarded -0.01. */
  lemma StepWithoutDeliveries(env: Env, ops: Operations<GraphState, ActionDict>, action: int)
    requires ReachesTimeStep(env, action)
    ensures var out := Step(env, ops, action);
            var before := Replay(ops, env.graph.value, out.calls[..|out.calls| - 1]);
            var none := NewlyDelivered(before.orders, out.env.graph.value.orders) == [];
            && (none <==> out.env.episodeDeliveryTimes == env.episodeDeliveryTimes)
            && (none && out.result.Success? ==> out.result.value.reward == -0.01)
  {
    StepDeliveryBookkeeping(env, ops, action);
    var out := Step(env, ops, action);
    var before := Replay(ops, env.graph.value, out.calls[..|out.calls| - 1]);
    var after := out.env.graph.value;
    if NewlyDelivered(before.orders, after.orders) == [] {
      assert DeliveryTimes(NewlyDelivered(before.orders, after.orders), after.timestep) == [];
    }
  }

  /** The assignment a step sends names the order at `order_index` of the
      pending list (counted from the end when negative, as Python does) and
      the driver at `driver_id` of the graph's driver list, with type
      `'assign'`; it is the first call, before the time step. */
  lemma StepAssignmentContents(env: Env, ops: Operations<GraphState, ActionDict>, action: int)
    requires ReachesTimeStep(env, action)
    requires AssignGate(env, |PendingOrders(env.graph.value.orders)|, Decode(action, env.numDrivers))
    ensures var out, g, d := Step(env, ops, action), env.graph.value, Decode(action, env.numDrivers);
            var pending := PendingOrders(g.orders);
            && InPyRange(|pending|, d.orderIndex) && 0 <= d.driverId < |g.drivers|
            && out.calls == [DoAction(ActionDict(AssignKind, PyIndex(pending, d.orderIndex).orderId,
                                                 g.drivers[d.driverId].driverId)), TimeStep]
  {
  }

  /** Through the action encoding: for an order slot `o` and a driver choice
      `d` in range, and a graph listing at least `numDrivers` drivers, the
      step never raises `IndexError` and sends an assignment exactly when
      slot `o` holds a pending order and `d` is a driver rather than "no
      assignment"; the assignment names that order and that driver. */
  lemma AssignThroughCodec(env: Env, ops: Operations<GraphState, ActionDict>, o: int, d: int)
    requires env.graph.Some? && |env.graph.value.drivers| >= env.numDrivers
    requires 0 <= o < env.maxPendingOrders && 0 <= d <= env.numDrivers
    ensures var out := Step(env, ops, Encode(o, d, env.numDrivers));
            var g := env.graph.value;
            var pending := PendingOrders(g.orders);
            && ReachesTimeStep(env, Encode(o, d, env.numDrivers))
            && (ActedOnGraph(out.calls) <==> o < |pending| && d < env.numDrivers)
            && (ActedOnGraph(out.calls) ==>
                  out.calls[0] == DoAction(ActionDict(AssignKind, pending[o].orderId, g.drivers[d].driverId)))
  {
    DecodeEncode(o, d, env.numDrivers);
    var out := Step(env, ops, Encode(o, d, env.numDrivers));
    if ActedOnGraph(out.calls) {
      StepAssignmentContents(env, ops, Encode(o, d, env.numDrivers));
    }
  }

  /** `(observation, info)` after a reset; `info` is always empty. */
  datatype ResetOutcome = ResetOutcome(env: Env, observation: Result<seq<real>>)

  /** `reset`: clears the episode's delivery times and reward and observes the
      graph; nothing else changes (in particular `lastDeliveryTime`). */
  function Reset(env: Env): (out: ResetOutcome)
    ensures out.env.episodeDeliveryTimes == [] && out.env.episodeReward == 0.0
    ensures out.env.graph == env.graph && SameSettings(out.env, env)
    ensures out.observation == GetObservation(out.env)
  {
    var env' := env.(episodeDeliveryTimes := [], episodeReward := 0.0);
    ResetOutcome(env', GetObservation(env'))
  }

  /** Resetting twice is the same as resetting once, and a reset right after
      a step observes exactly what that step returned. */
  lemma ResetIdempotent(env: Env, ops: Operations<GraphState, ActionDict>, action: int)
    ensures Reset(Reset(env).env) == Reset(env)
    ensures var out := Step(env, ops, action);
            ReachesTimeStep(env, action) && out.result.Success? ==>
              Reset(out.env).observation == Success(out.result.value.observation)
  {
  }
}

=== FILE: observation_layout.dfy ===
/** The layout of the environment's observation vector.

    The vector has three sections: five entries per driver (padded with zero
    blocks up to the declared driver count), four entries for each of the
    `maxPendingOrders` pending-order slots (zeros for an empty slot), and the
    flattened distance matrix (or `numNodes * numNodes` zeros without one).
    Entries are exact reals; the float32 rounding of the Python code is not modelled. */
module ObservationLayout {
  import opened Basics
  import opened Seqs
  import opened Simulation

  /** The declared observation length: 5 entries per driver, 4 per order
      slot, one per pair of nodes. */
  function ObsDim(numDrivers: nat, maxPendingOrders: nat, numNodes: nat): nat {
    numDrivers * 5 + maxPendingOrders * 4 + numNodes * numNodes
  }

  /** Location, has-order flag, delay, and the pickup and dropoff nodes of the
      carried order, node numbers normalised by the node count. */
  function DriverFeatures(d: Driver, numNodes: nat): seq<real>
    requires numNodes > 0
  {
    var n := numNodes as real;
    [ d.currentNode as real / n,
      if d.order.Some? then 1.0 else 0.0,
      d.delay as real / 100.0,
      if d.order.Some? then d.order.value.pickupNode as real / n else 0.0,
      if d.order.Some? then d.order.value.dropoffNode as real / n else 0.0 ]
  }

  /** The features of every driver, in order. */
  function DriverBlock(drivers: seq<Driver>, numNodes: nat): (r: seq<real>)
    requires numNodes > 0 || drivers == []
    ensures |r| == 5 * |drivers|
  {
    if drivers == [] then []
    else DriverBlock(drivers[..|drivers| - 1], numNodes) + DriverFeatures(drivers[|drivers| - 1], numNodes)
  }

  /** Driver `j` occupies entries `5j .. 5j+4` of the driver block. */
  lemma {:induction false} DriverBlockSlots(drivers: seq<Driver>, numNodes: nat)
    requires numNodes > 0 || drivers == []
    ensures forall j :: 0 <= j < |drivers| ==>
              DriverBlock(drivers, numNodes)[5 * j .. 5 * j + 5] == DriverFeatures(drivers[j], numNodes)
  {
    if drivers != [] {
      var init := drivers[..|drivers| - 1];
      DriverBlockSlots(init, numNodes);
      var head := DriverBlock(init, numNodes);
      var r := DriverBlock(drivers, numNodes);
      assert r == head + DriverFeatures(drivers[|drivers| - 1], numNodes);
      forall j | 0 <= j < |drivers|
        ensures r[5 * j .. 5 * j + 5] == DriverFeatures(drivers[j], numNodes)
      {
        if j < |init| {
          assert r[5 * j .. 5 * j + 5] == head[5 * j .. 5 * j + 5];
          assert init[j] == drivers[j];
        } else {
          assert |head| == 5 * j;
          assert r[5 * j .. 5 * j + 5] == r[|head|..];
        }
      }
    }
  }

  /** `while len(obs) < target: obs.extend([0.0] * 5)`. */
  function PadDrivers(obs: seq<real>, target: nat): (r: seq<real>)
    ensures |obs| >= target ==> r == obs
    ensures |obs| < target ==> target <= |r| < target + 5
    ensures |obs| <= target && (target - |obs|) % 5 == 0 ==> |r| == target
    ensures (|r| - |obs|) % 5 == 0
    ensures r[..|obs|] == obs
    ensures forall i :: |obs| <= i < |r| ==> r[i] == 0.0
    decreases target - |obs|
  {
    if |obs| < target then PadDrivers(obs + Zeros(5), target) else obs
  }

  /** The length of the driver section: five entries per declared driver, or
      per listed driver when the graph lists more than were declared. */
  function DriverSectionLength(listed: nat, numDrivers: nat): nat {
    5 * (if listed <= numDrivers then numDrivers else listed)
  }

  /** Padding a block of `used` drivers to `numDrivers` blocks fills it
      exactly, and leaves a block of more drivers as it is. */
  lemma PadDriverBlock(obs: seq<real>, used: nat, numDrivers: nat)
    requires |obs| == 5 * used
    ensures |PadDrivers(obs, numDrivers * 5)| == DriverSectionLength(used, numDrivers)
  {
    if used <= numDrivers {
      assert numDrivers * 5 - |obs| == 5 * (numDrivers - used);
    }
  }

  /** Pickup node, dropoff node, creation time and waiting time of an order. */
  function OrderFeatures(o: Order, timestep: int, numNodes: nat): seq<real>
    requires numNodes > 0
  {
    var n := numNodes as real;
    [ o.pickupNode as real / n,
      o.dropoffNode as real / n,
      o.timeCreated as real / 10000.0,
      (timestep - o.timeCreated) as real / 100.0 ]
  }

  /** Slot `i` of the order section: the `i`-th pending order, or padding. */
  function OrderSlot(pending: seq<Order>, i: nat, timestep: int, numNodes: nat): seq<real>
    requires i < |pending| ==> numNodes > 0
  {
    if i < |pending| then OrderFeatures(pending[i], timestep, numNodes) else Zeros(4)
  }

  /** The first `slots` order slots, in order. */
  function OrderBlock(pending: seq<Order>, slots: nat, timestep: int, numNodes: nat): (r: seq<real>)
    requires numNodes > 0 || pending == [] || slots == 0
    ensures |r| == 4 * slots
  {
    if slots == 0 then []
    else OrderBlock(pending, slots - 1, timestep, numNodes) + OrderSlot(pending, slots - 1, timestep, numNodes)
  }

  /** Slot `i` occupies entries `4i .. 4i+3` of the order block. */
  lemma {:induction false} OrderBlockSlots(pending: seq<Order>, slots: nat, timestep: int, numNodes: nat)
    requires numNodes > 0 || pending == [] || slots == 0
    ensures forall i :: 0 <= i < slots ==>
              OrderBlock(pending, slots, timestep, numNodes)[4 * i .. 4 * i + 4] == OrderSlot(pending, i, timestep, numNodes)
  {
    if slots > 0 {
      OrderBlockSlots(pending, slots - 1, timestep, numNodes);
      var head := OrderBlock(pending, slots - 1, timestep, numNodes);
      var r := OrderBlock(pending, slots, timestep, numNodes);
      assert r == head + OrderSlot(pending, slots - 1, timestep, numNodes);
      forall i | 0 <= i < slots
        ensures r[4 * i .. 4 * i + 4] == OrderSlot(pending, i, timestep, numNodes)
      {
        if i < slots - 1 {
          assert r[4 * i .. 4 * i + 4] == head[4 * i .. 4 * i + 4];
        } else {
          assert |head| == 4 * i;
          assert r[4 * i .. 4 * i + 4] == r[|head|..];
        }
      }
    }
  }

  /** The flattened distance matrix scaled by 1/1000, or zeros without one. */
  function DistanceBlock(distanceMatrix: Option<seq<seq<real>>>, numNodes: nat): seq<real> {
    match distanceMatrix
    case Some(m) => Scale(Flatten(m), 1000.0)
    case None => Zeros(numNodes * numNodes)
  }

  /** Whether building the vector divides by the node count: some driver is
      listed, or some pending order falls in one of the slots. */
  predicate DividesByNodeCount(drivers: seq<Driver>, pending: seq<Order>, maxPendingOrders: nat) {
    |drivers| > 0 || (maxPendingOrders > 0 && |pending| > 0)
  }

  /** The observation of a graph, or the `ZeroDivisionError` raised when the
      node count is zero and some entry has to be normalised by it. */
  function Layout(drivers: seq<Driver>, pending: seq<Order>, timestep: int,
                  distanceMatrix: Option<seq<seq<real>>>,
                  numDrivers: nat, maxPendingOrders: nat, numNodes: nat): Result<seq<real>>
  {
    if numNodes == 0 && DividesByNodeCount(drivers, pending, maxPendingOrders) then
      Failure(ZeroDivisionError)
    else
      Success(PadDrivers(DriverBlock(drivers, numNodes), numDrivers * 5)
              + OrderBlock(pending, maxPendingOrders, timestep, numNodes)
              + DistanceBlock(distanceMatrix, numNodes))
  }

  /** The distance matrix is absent or square with `numNodes` rows. */
  predicate SquareOrAbsent(distanceMatrix: Option<seq<seq<real>>>, numNodes: nat) {
    distanceMatrix.Some? ==> |distanceMatrix.value| == numNodes && HasColumns(distanceMatrix.value, numNodes)
  }

  /** With a square (or absent) distance matrix, the vector has a driver
      section, `maxPendingOrders` slots of four and `numNodes * numNodes`
      distances; with at most `numDrivers` drivers that is the declared length. */
  lemma LayoutLength(drivers: seq<Driver>, pending: seq<Order>, timestep: int,
                     distanceMatrix: Option<seq<seq<real>>>,
                     numDrivers: nat, maxPendingOrders: nat, numNodes: nat)
    requires SquareOrAbsent(distanceMatrix, numNodes)
    ensures var r := Layout(drivers, pending, timestep, distanceMatrix, numDrivers, maxPendingOrders, numNodes);
            r.Success? ==>
              && |r.value| == DriverSectionLength(|drivers|, numDrivers) + maxPendingOrders * 4 + numNodes * numNodes
              && (|drivers| <= numDrivers ==> |r.value| == ObsDim(numDrivers, maxPendingOrders, numNodes))
  {
    var r := Layout(drivers, pending, timestep, distanceMatrix, numDrivers, maxPendingOrders, numNodes);
    if r.Success? {
      var block := DriverBlock(drivers, numNodes);
      PadDriverBlock(block, |drivers|, numDrivers);
      if distanceMatrix.Some? {
        FlattenLength(distanceMatrix.value, numNodes);
      }
    }
  }

  /** The driver section followed by anything: each driver's five features
      in its block, zeros in the padding, and the rest after the section. */
  lemma DriverSection(drivers: seq<Driver>, numNodes: nat, numDrivers: nat, rest: seq<real>)
    requires numNodes > 0 || drivers == []
    ensures var v := PadDrivers(DriverBlock(drivers, numNodes), numDrivers * 5) + rest;
            var len := DriverSectionLength(|drivers|, numDrivers);
            && |v| == len + |rest|
            && (forall j :: 0 <= j < |drivers| ==> v[5 * j .. 5 * j + 5] == DriverFeatures(drivers[j], numNodes))
            && (forall k :: 5 * |drivers| <= k < 5 * numDrivers ==> v[k] == 0.0)
            && v[len..] == rest
  {
    var block := DriverBlock(drivers, numNodes);
    PadDriverBlock(block, |drivers|, numDrivers);
    var padded := PadDrivers(block, numDrivers * 5);
    var v := padded + rest;
    DriverBlockSlots(drivers, numNodes);
    forall j | 0 <= j < |drivers|
      ensures v[5 * j .. 5 * j + 5] == DriverFeatures(drivers[j], numNodes)
    {
      assert padded[..|block|] == block;
      assert v[5 * j .. 5 * j + 5] == padded[5 * j .. 5 * j + 5] == block[5 * j .. 5 * j + 5];
    }
    forall k | 5 * |drivers| <= k < 5 * numDrivers
      ensures v[k] == 0.0
    {
      assert v[k] == padded[k];
    }
  }

  /** The slots past the last pending order are zeros. */
  lemma {:induction false} OrderPadding(pending: seq<Order>, slots: nat, timestep: int, numNodes: nat)
    requires numNodes > 0 || pending == [] || slots == 0
    ensures forall k :: 4 * |pending| <= k < 4 * slots ==> OrderBlock(pending, slots, timestep, numNodes)[k] == 0.0
  {
    if slots > 0 {
      OrderPadding(pending, slots - 1, timestep, numNodes);
      var head := OrderBlock(pending, slots - 1, timestep, numNodes);
      var slot := OrderSlot(pending, slots - 1, timestep, numNodes);
      assert OrderBlock(pending, slots, timestep, numNodes) == head + slot;
      if slots - 1 >= |pending| {
        assert slot == Zeros(4);
      }
    }
  }

  /** The order section followed by anything: slot `i` holds the `i`-th
      pending order's features while there is one, zeros after that. */
  lemma OrderSection(pending: seq<Order>, slots: nat, timestep: int, numNodes: nat, rest: seq<real>)
    requires numNodes > 0 || pending == [] || slots == 0
    ensures var w := OrderBlock(pending, slots, timestep, numNodes) + rest;
            && |w| == 4 * slots + |rest|
            && (forall i :: 0 <= i < slots && i < |pending| ==> w[4 * i .. 4 * i + 4] == OrderFeatures(pending[i], timestep, numNodes))
            && (forall k :: 4 * |pending| <= k < 4 * slots ==> w[k] == 0.0)
            && w[4 * slots ..] == rest
  {
    var orders := OrderBlock(pending, slots, timestep, numNodes);
    var w := orders + rest;
    OrderBlockSlots(pending, slots, timestep, numNodes);
    OrderPadding(pending, slots, timestep, numNodes);
    forall i | 0 <= i < slots && i < |pending|
      ensures w[4 * i .. 4 * i + 4] == OrderFeatures(pending[i], timestep, numNodes)
    {
      assert w[4 * i .. 4 * i + 4] == orders[4 * i .. 4 * i + 4];
      assert orders[4 * i .. 4 * i + 4] == OrderSlot(pending, i, timestep, numNodes);
    }
    forall k | 4 * |pending| <= k < 4 * slots
      ensures w[k] == 0.0
    {
      assert w[k] == orders[k];
    }
  }

  /** Reads the five features of driver `d` off the block at `5j`. */
  lemma DriverEntries(v: seq<real>, j: nat, d: Driver, numNodes: nat)
    requires numNodes > 0
    requires 5 * j + 5 <= |v| && v[5 * j .. 5 * j + 5] == DriverFeatures(d, numNodes)
    ensures && v[5 * j] == d.currentNode as real / numNodes as real
            && v[5 * j + 1] == (if d.order.Some? then 1.0 else 0.0)
            && v[5 * j + 2] == d.delay as real / 100.0
            && v[5 * j + 3] == (if d.order.Some? then d.order.value.pickupNode as real / numNodes as real else 0.0)
            && v[5 * j + 4] == (if d.order.Some? then d.order.value.dropoffNode as real / numNodes as real else 0.0)
  {
    var w := v[5 * j .. 5 * j + 5];
    assert v[5 * j] == w[0] && v[5 * j + 1] == w[1] && v[5 * j + 2] == w[2];
    assert v[5 * j + 3] == w[3] && v[5 * j + 4] == w[4];
  }

  /** Reads the four features of order `o` off the slot at `b`. */
  lemma OrderEntries(v: seq<real>, b: nat, o: Order, timestep: int, numNodes: nat)
    requires numNodes > 0
    requires b + 4 <= |v| && v[b .. b + 4] == OrderFeatures(o, timestep, numNodes)
    ensures && v[b] == o.pickupNode as real / numNodes as real
            && v[b + 1] == o.dropoffNode as real / numNodes as real
            && v[b + 2] == o.timeCreated as real / 10000.0
            && v[b + 3] == (timestep - o.timeCreated) as real / 100.0
  {
    var w := v[b .. b + 4];
    assert v[b] == w[0] && v[b + 1] == w[1] && v[b + 2] == w[2] && v[b + 3] == w[3];
  }

  /** The driver section of an observation `v`: driver `j` fills entries
      `5j .. 5j+4` with its location, has-order flag, delay and its carried
      order's pickup and dropoff nodes; a driver without an order has zeros in
      the last two; the padding up to `numDrivers` blocks is zero. A graph
      listing more drivers than declared gets a block for each of them. */
  lemma LayoutDriverSlots(drivers: seq<Driver>, pending: seq<Order>, timestep: int,
                          distanceMatrix: Option<seq<seq<real>>>,
                          numDrivers: nat, maxPendingOrders: nat, numNodes: nat, v: seq<real>)
    requires Layout(drivers, pending, timestep, distanceMatrix, numDrivers, maxPendingOrders, numNodes) == Success(v)
    ensures |v| >= DriverSectionLength(|drivers|, numDrivers)
    ensures |drivers| > 0 ==> numNodes > 0
    ensures forall j :: 0 <= j < |drivers| ==>
              var d := drivers[j];
              && v[5 * j] == d.currentNode as real / numNodes as real
              && v[5 * j + 1] == (if d.order.Some? then 1.0 else 0.0)
              && v[5 * j + 2] == d.delay as real / 100.0
              && v[5 * j + 3] == (if d.order.Some? then d.order.value.pickupNode as real / numNodes as real else 0.0)
              && v[5 * j + 4] == (if d.order.Some? then d.order.value.dropoffNode as real / numNodes as real else 0.0)
    ensures forall k :: 5 * |drivers| <= k < 5 * numDrivers ==> v[k] == 0.0
  {
    var rest := OrderBlock(pending, maxPendingOrders, timestep, numNodes) + DistanceBlock(distanceMatrix, numNodes);
    DriverSection(drivers, numNodes, numDrivers, rest);
    assert v == PadDrivers(DriverBlock(drivers, numNodes), numDrivers * 5) + rest;
    forall j | 0 <= j < |drivers|
      ensures var d := drivers[j];
              && v[5 * j] == d.currentNode as real / numNodes as real
              && v[5 * j + 1] == (if d.order.Some? then 1.0 else 0.0)
              && v[5 * j + 2] == d.delay as real / 100.0
              && v[5 * j + 3] == (if d.order.Some? then d.order.value.pickupNode as real / numNodes as real else 0.0)
              && v[5 * j + 4] == (if d.order.Some? then d.order.value.dropoffNode as real / numNodes as real else 0.0)
    {
      DriverEntries(v, j, drivers[j], numNodes);
    }
  }

  /** Reads the order section off an observation whose suffix from `base` is
      the order block followed by anything. */
  lemma OrderSectionAt(pending: seq<Order>, slots: nat, timestep: int, numNodes: nat,
                       rest: seq<real>, v: seq<real>, base: nat)
    requires numNodes > 0 || pending == [] || slots == 0
    requires base <= |v| && v[base..] == OrderBlock(pending, slots, timestep, numNodes) + rest
    ensures |v| >= base + 4 * slots
    ensures forall i :: 0 <= i < slots && i < |pending| ==>
              var o, b := pending[i], base + 4 * i;
              && v[b] == o.pickupNode as real / numNodes as real
              && v[b + 1] == o.dropoffNode as real / numNodes as real
              && v[b + 2] == o.timeCreated as real / 10000.0
              && v[b + 3] == (timestep - o.timeCreated) as real / 100.0
  {
    var tail := v[base..];
    OrderSection(pending, slots, timestep, numNodes, rest);
    assert forall m :: 0 <= m < |tail| ==> v[base + m] == tail[m];
    forall i | 0 <= i < slots && i < |pending|
      ensures var o, b := pending[i], base + 4 * i;
              && v[b] == o.pickupNode as real / numNodes as real
              && v[b + 1] == o.dropoffNode as real / numNodes as real
              && v[b + 2] == o.timeCreated as real / 10000.0
              && v[b + 3] == (timestep - o.timeCreated) as real / 100.0
    {
      OrderEntries(tail, 4 * i, pending[i], timestep, numNodes);
    }
  }

  /** The padding slots of an order section starting at `base` are zeros. */
  lemma OrderPaddingAt(pending: seq<Order>, slots: nat, timestep: int, numNodes: nat,
                       rest: seq<real>, v: seq<real>, base: nat)
    requires numNodes > 0 || pending == [] || slots == 0
    requires base <= |v| && v[base..] == OrderBlock(pending, slots, timestep, numNodes) + rest
    ensures |v| >= base + 4 * slots
    ensures forall k :: base + 4 * |pending| <= k < base + 4 * slots ==> v[k] == 0.0
  {
    var tail := v[base..];
    OrderSection(pending, slots, timestep, numNodes, rest);
    forall k | base + 4 * |pending| <= k < base + 4 * slots
      ensures v[k] == 0.0
    {
      assert v[k] == tail[k - base];
    }
  }

  /** The order section of an observation `v`, after the driver section
      (`numDrivers` blocks, or one per listed driver when more are listed):
      slot `i` holds the `i`-th pending order's pickup node, dropoff
      node, creation time and waiting time, for the first
      `min(|pending|, maxPendingOrders)` slots; every later slot is zeros. */
  lemma LayoutOrderSlots(drivers: seq<Driver>, pending: seq<Order>, timestep: int,
                         distanceMatrix: Option<seq<seq<real>>>,
                         numDrivers: nat, maxPendingOrders: nat, numNodes: nat, v: seq<real>)
    requires Layout(drivers, pending, timestep, distanceMatrix, numDrivers, maxPendingOrders, numNodes) == Success(v)
    ensures |v| >= DriverSectionLength(|drivers|, numDrivers) + 4 * maxPendingOrders
    ensures maxPendingOrders > 0 && |pending| > 0 ==> numNodes > 0
    ensures forall i :: 0 <= i < maxPendingOrders && i < |pending| ==>
              var o, b := pending[i], DriverSectionLength(|drivers|, numDrivers) + 4 * i;
              && v[b] == o.pickupNode as real / numNodes as real
              && v[b + 1] == o.dropoffNode as real / numNodes as real
              && v[b + 2] == o.timeCreated as real / 10000.0
              && v[b + 3] == (timestep - o.timeCreated) as real / 100.0
    ensures var base := DriverSectionLength(|drivers|, numDrivers);
            forall k :: base + 4 * |pending| <= k < base + 4 * maxPendingOrders ==> v[k] == 0.0
  {
    var dist := DistanceBlock(distanceMatrix, numNodes);
    var tail := OrderBlock(pending, maxPendingOrders, timestep, numNodes) + dist;
    var padded := PadDrivers(DriverBlock(drivers, numNodes), numDrivers * 5);
    PadDriverBlock(DriverBlock(drivers, numNodes), |drivers|, numDrivers);
    var base := DriverSectionLength(|drivers|, numDrivers);
    assert v == padded + tail;
    assert v[base..] == tail;
    OrderSectionAt(pending, maxPendingOrders, timestep, numNodes, dist, v, base);
    OrderPaddingAt(pending, maxPendingOrders, timestep, numNodes, dist, v, base);
  }

  /** Reads one distance off an observation whose suffix from `base` is the
      scaled flattening of `m`. */
  lemma DistanceEntryAt(m: seq<seq<real>>, cols: nat, v: seq<real>, base: nat, r: nat, c: nat)
    requires HasColumns(m, cols) && r < |m| && c < cols
    requires base <= |v| && v[base..] == Scale(Flatten(m), 1000.0)
    ensures base + RowMajorIndex(r, cols, c) < |v|
    ensures v[base + RowMajorIndex(r, cols, c)] == m[r][c] / 1000.0
  {
    FlattenEntry(m, cols, r, c);
    var k := RowMajorIndex(r, cols, c);
    assert v[base + k] == v[base..][k];
  }

  /** Reads the distance section off an observation whose suffix from
      `base` is the distance block. */
  lemma DistanceSectionAt(distanceMatrix: Option<seq<seq<real>>>, numNodes: nat, v: seq<real>, base: nat, cols: nat)
    requires base <= |v| && v[base..] == DistanceBlock(distanceMatrix, numNodes)
    ensures distanceMatrix.None? ==>
              |v| == base + numNodes * numNodes && forall k :: base <= k < |v| ==> v[k] == 0.0
    ensures distanceMatrix.Some? && HasColumns(distanceMatrix.value, cols) ==>
              var m := distanceMatrix.value;
              forall r: nat, c: nat :: r < |m| && c < cols ==>
                base + RowMajorIndex(r, cols, c) < |v| && v[base + RowMajorIndex(r, cols, c)] == m[r][c] / 1000.0
  {
    if distanceMatrix.None? {
      forall k | base <= k < |v|
        ensures v[k] == 0.0
      {
        assert v[k] == v[base..][k - base];
      }
    } else if HasColumns(distanceMatrix.value, cols) {
      var m := distanceMatrix.value;
      forall r: nat, c: nat | r < |m| && c < cols {
        DistanceEntryAt(m, cols, v, base, r, c);
      }
    }
  }

  /** The distance section of an observation `v`, after the driver and order
      sections: with rows of `cols` entries, entry `c` of row `r` of the
      matrix, divided by 1000, at row-major position `r * cols + c`
      (`RowMajorIndexIsProduct`); `numNodes * numNodes` zeros without a matrix. */
  lemma LayoutDistanceSlots(drivers: seq<Driver>, pending: seq<Order>, timestep: int,
                            distanceMatrix: Option<seq<seq<real>>>,
                            numDrivers: nat, maxPendingOrders: nat, numNodes: nat, v: seq<real>, cols: nat)
    requires Layout(drivers, pending, timestep, distanceMatrix, numDrivers, maxPendingOrders, numNodes) == Success(v)
    ensures var base := DriverSectionLength(|drivers|, numDrivers) + 4 * maxPendingOrders;
            && base <= |v|
            && (distanceMatrix.None? ==>
                  |v| == base + numNodes * numNodes && forall k :: base <= k < |v| ==> v[k] == 0.0)
            && (distanceMatrix.Some? && HasColumns(distanceMatrix.value, cols) ==>
                  var m := distanceMatrix.value;
                  forall r: nat, c: nat :: r < |m| && c < cols ==>
                    && base + RowMajorIndex(r, cols, c) < |v|
                    && v[base + RowMajorIndex(r, cols, c)] == m[r][c] / 1000.0)
  {
    var dist := DistanceBlock(distanceMatrix, numNodes);
    var orders := OrderBlock(pending, maxPendingOrders, timestep, numNodes);
    var padded := PadDrivers(DriverBlock(drivers, numNodes), numDrivers * 5);
    PadDriverBlock(DriverBlock(drivers, numNodes), |drivers|, numDrivers);
    var base := DriverSectionLength(|drivers|, numDrivers) + 4 * maxPendingOrders;
    assert v == (padded + orders) + dist;
    assert v[base..] == dist;
    DistanceSectionAt(distanceMatrix, numNodes, v, base, cols);
  }
}

=== FILE: seqs.dfy ===
/** Sequence helpers shared by the environment model: filtering (Python's
    list comprehension with an `if`), sums, zero padding and flattening. */
module Seqs {

  /** `[x for x in s if p(x)]`: keeps the elements that satisfy `p`, in order. */
  function Filter<T(==,!new)>(s: seq<T>, p: T -> bool): (r: seq<T>)
    ensures |r| <= |s|
    ensures forall i :: 0 <= i < |r| ==> p(r[i])
    ensures forall x :: x in r <==> x in s && p(x)
  {
    if s == [] then []
    else (if p(s[0]) then [s[0]] else []) + Filter(s[1..], p)
  }

  /** Filtering distributes over concatenation: together with the one-element
      case this pins the result down as the order-preserving selection. */
  lemma {:induction false} FilterConcat<T(!new)>(a: seq<T>, b: seq<T>, p: T -> bool)
    ensures Filter(a + b, p) == Filter(a, p) + Filter(b, p)
  {
    if a == [] {
      assert a + b == b;
    } else {
      assert (a + b)[0] == a[0];
      assert (a + b)[1..] == a[1..] + b;
      FilterConcat(a[1..], b, p);
    }
  }

  /** Filtering twice with the same predicate changes nothing. */
  lemma {:induction false} FilterIdempotent<T(!new)>(s: seq<T>, p: T -> bool)
    ensures Filter(Filter(s, p), p) == Filter(s, p)
  {
    if s != [] {
      FilterIdempotent(s[1..], p);
      var rest := Filter(s[1..], p);
      if p(s[0]) {
        var x := [s[0]] + rest;
        assert Filter(s, p) == x;
        assert x[0] == s[0] && x[1..] == rest;
        assert Filter(x, p) == [s[0]] + Filter(rest, p);
      } else {
        assert Filter(s, p) == [] + rest;
        assert [] + rest == rest;
      }
    }
  }

  /** A sequence whose every element satisfies `p` is its own filter. */
  lemma {:induction false} FilterAll<T(!new)>(s: seq<T>, p: T -> bool)
    requires forall i :: 0 <= i < |s| ==> p(s[i])
    ensures Filter(s, p) == s
  {
    if s != [] {
      FilterAll(s[1..], p);
    }
  }

  /** The sum of a list of integers. */
  function Sum(s: seq<int>): int {
    if s == [] then 0 else Sum(s[..|s| - 1]) + s[|s| - 1]
  }

  /** `[0.0] * n`. */
  function Zeros(n: nat): (r: seq<real>)
    ensures |r| == n
    ensures forall i :: 0 <= i < n ==> r[i] == 0.0
  {
    seq(n, _ => 0.0)
  }

  /** Row-major flattening of a matrix (numpy's `flatten()`). */
  function Flatten(m: seq<seq<real>>): seq<real> {
    if m == [] then [] else Flatten(m[..|m| - 1]) + m[|m| - 1]
  }

  /** Every row of `m` has `cols` entries. */
  predicate HasColumns(m: seq<seq<real>>, cols: nat) {
    forall i :: 0 <= i < |m| ==> |m[i]| == cols
  }

  /** Flattening a matrix whose rows all have `cols` entries yields `rows * cols` entries. */
  lemma {:induction false} FlattenLength(m: seq<seq<real>>, cols: nat)
    requires HasColumns(m, cols)
    ensures |Flatten(m)| == |m| * cols
  {
    if m != [] {
      FlattenLength(m[..|m| - 1], cols);
      assert |Flatten(m)| == (|m| - 1) * cols + cols;
    }
  }

  /** The row-major position of entry `c` of row `r` in rows of `cols`
      entries, counted row by row. */
  function RowMajorIndex(r: nat, cols: nat, c: nat): nat {
    if r == 0 then c else cols + RowMajorIndex(r - 1, cols, c)
  }

  /** The row-major position is `r * cols + c`. */
  lemma {:induction false} RowMajorIndexIsProduct(r: nat, cols: nat, c: nat)
    ensures RowMajorIndex(r, cols, c) == r * cols + c
  {
    if r > 0 {
      RowMajorIndexIsProduct(r - 1, cols, c);
    }
  }

  /** In a matrix whose rows all have `cols` entries, entry `c` of row `r`
      lands at its row-major position in the flattening. */
  lemma {:induction false} FlattenEntry(m: seq<seq<real>>, cols: nat, r: nat, c: nat)
    requires HasColumns(m, cols) && r < |m| && c < cols
    ensures RowMajorIndex(r, cols, c) < |Flatten(m)| && Flatten(m)[RowMajorIndex(r, cols, c)] == m[r][c]
  {
    var init := m[..|m| - 1];
    FlattenLength(init, cols);
    var head := Flatten(init);
    assert Flatten(m) == head + m[|m| - 1];
    if r < |init| {
      FlattenEntry(init, cols, r, c);
      assert init[r] == m[r];
    } else {
      RowMajorIndexIsProduct(r, cols, c);
      assert RowMajorIndex(r, cols, c) == |head| + c;
    }
  }

  /** Every entry of the matrix, at its row-major position in the flattening. */
  lemma FlattenEntries(m: seq<seq<real>>, cols: nat)
    requires HasColumns(m, cols)
    ensures forall r: nat, c: nat :: r < |m| && c < cols ==>
              RowMajorIndex(r, cols, c) < |Flatten(m)| && Flatten(m)[RowMajorIndex(r, cols, c)] == m[r][c]
  {
    forall r: nat, c: nat | r < |m| && c < cols {
      FlattenEntry(m, cols, r, c);
    }
  }

  /** Every entry divided by `d` (numpy's `array / d`). */
  function Scale(s: seq<real>, d: real): (r: seq<real>)
    requires d != 0.0
    ensures |r| == |s|
    ensures forall i :: 0 <= i < |s| ==> r[i] == s[i] / d
  {
    seq(|s|, i requires 0 <= i < |s| => s[i] / d)
  }
}

=== FILE: simulation.dfy ===
/** The state of the delivery graph as the environment reads it.

    The graph itself is an external collaborator: these records hold only the
    attributes the environment and the app state inspect, never how the graph
    produces or changes them. */
module Simulation {
  import opened Basics

  datatype Order = Order(
    orderId: int,
    pickupNode: int,
    dropoffNode: int,
    timeCreated: int,
    isDelivered: bool,
    isPickedUp: bool)

  datatype Driver = Driver(
    driverId: int,
    currentNode: int,
    delay: int,
    order: Option<Order>)

  /** A snapshot of the graph: its declared sizes, clock, drivers, orders and
      (when present) its distance matrix. */
  datatype GraphState = GraphState(
    numNodes: nat,
    numDrivers: Option<nat>,
    timestep: int,
    drivers: seq<Driver>,
    orders: seq<Order>,
    distanceMatrix: Option<seq<seq<real>>>)

  /** The dictionary `{'type': kind, 'order_id': …, 'driver_id': …}` handed to `do_action`. */
  datatype ActionDict = ActionDict(kind: string, orderId: int, driverId: int)

  const AssignKind: string := "assign"

  /** The `order_id -> is_delivered` dictionary built by a comprehension over
      `orders`: when ids repeat, the later order wins. */
  function DeliveredById(orders: seq<Order>): (m: map<int, bool>)
    ensures forall i :: 0 <= i < |orders| ==> orders[i].orderId in m
    ensures forall id :: id in m ==> exists i :: 0 <= i < |orders| && orders[i].orderId == id
  {
    if orders == [] then map[]
    else
      var last := orders[|orders| - 1];
      DeliveredById(orders[..|orders| - 1])[last.orderId := last.isDelivered]
  }

  /** All order ids are distinct. */
  predicate UniqueIds(orders: seq<Order>) {
    forall i, j :: 0 <= i < j < |orders| ==> orders[i].orderId != orders[j].orderId
  }

  /** With distinct ids, the dictionary records each order's own flag. */
  lemma {:induction false} DeliveredByIdUnique(orders: seq<Order>)
    requires UniqueIds(orders)
    ensures forall i :: 0 <= i < |orders| ==> DeliveredById(orders)[orders[i].orderId] == orders[i].isDelivered
  {
    if orders != [] {
      var init := orders[..|orders| - 1];
      assert UniqueIds(init);
      DeliveredByIdUnique(init);
      forall i | 0 <= i < |orders| - 1
        ensures DeliveredById(orders)[orders[i].orderId] == orders[i].isDelivered
      {
        assert orders[i] == init[i];
      }
    }
  }

  /** No later order shares the id of order `i`. */
  predicate LastWithId(orders: seq<Order>, i: int)
    requires 0 <= i < |orders|
  {
    forall j :: i < j < |orders| ==> orders[j].orderId != orders[i].orderId
  }

  /** When ids repeat, the dictionary keeps the flag of the last order with
      each id, as a dict comprehension overwrites earlier keys. */
  lemma {:induction false} DeliveredByIdLastWins(orders: seq<Order>)
    ensures forall i :: 0 <= i < |orders| && LastWithId(orders, i) ==>
              DeliveredById(orders)[orders[i].orderId] == orders[i].isDelivered
  {
    if orders != [] {
      var init := orders[..|orders| - 1];
      DeliveredByIdLastWins(init);
      forall i | 0 <= i < |orders| - 1 && LastWithId(orders, i)
        ensures DeliveredById(orders)[orders[i].orderId] == orders[i].isDelivered
      {
        assert orders[i] == init[i];
        assert LastWithId(init, i);
        assert orders[|orders| - 1].orderId != orders[i].orderId;
      }
    }
  }

  /** `before.get(id, False)`: whether the dictionary records the order as delivered. */
  predicate RecordedDelivered(before: map<int, bool>, id: int) {
    id in before && before[id]
  }
}
